=== FILE: README.md ===
# URLytics decision logic in Dafny

URLytics serves a phishing classifier for URLs and ships a drift monitor
that tells its operators when to retrain. This project models the parts
of both that make decisions, as pure Dafny functions over `real`, `int`,
`string`, sequences and maps, and proves what those decisions promise:

- **Drift checks** (`drift_monitoring_example.py`). `check_drift_simple`
  compares the current mean and standard deviation of each feature with the
  baseline's. `check_drift_ks_test` flags features by the p-value of a
  Kolmogorov-Smirnov test. Both are modelled on one shared, order-keeping
  scan (`FeatureScan.Scan`). Both grade their result with the shared
  NONE / LOW / MODERATE / HIGH severity (`DriftSeverity`).
- **Legacy drift check** (`phishing_model_artefacts/drift_monitoring_example.py`),
  kept as its own strategy (`LegacyDrift`). It has no `abs` on the baseline
  standard deviation, its 0.5 cut-off is fixed, and it grades no severity.
  Because its divisor can be zero or negative, a change there is a float64
  quotient that may be infinite or NaN.
- **Performance decay** (`check_performance_decay`, module `PerformanceDecay`).
- **Retraining advisor** (`should_retrain`, module `Retraining`). It folds
  drift and decay into `should_retrain`, an urgency, ordered reasons and an
  action.
- **URL features and response shaping** (`api.py`). Module `UrlFeatures`
  holds the six features of `extract_features_from_text`. Module
  `PredictionApi` holds the validation of the request's `text` and the
  `risk_level`, `prediction_label` and `analyzed_text` fields of `/predict`.

Python dicts are insertion-ordered, and the monitor reports lists in the
order it visits their keys. They are therefore modelled as
`OrderedMaps.OrderedMap`: a key sequence without duplicates next to a map
with the same key set. Floating-point values are modelled as Dafny `real`.
Strings are ASCII `seq<char>`.

All operations are Dafny functions, so they are deterministic. In
particular, `should_retrain` gives the same recommendation whenever it is
called on the same inputs.

Column statistics (pandas `mean`/`std`), the KS test (scipy `ks_2samp`) and
the classifier with its scaler are inputs to the model. The baseline file is
passed in as a value (`DriftChecks.Baseline`).

## Behaviour worth noting

- Features missing from the current data are skipped, yet they still count
  in the severity denominator: the code divides by the number of all
  baseline features (or all reference columns). See
  `DriftChecks.MissingFeatureCountsInDenominator`.
- Mild performance decay raises the urgency to MEDIUM only from NONE, so
  LOW drift plus mild decay stays LOW. See
  `Retraining.LowDriftMildDecayStaysLow`.
- Mild decay leaves the action unchanged, so "Continue monitoring" can come
  with `should_retrain = true`. See
  `Retraining.MildDecayAloneKeepsDefaultAction`.
- There are no dedicated error results for a bad baseline or an empty batch:
  a malformed baseline raises `KeyError` (see "Left out").

## Model

| member | source | states |
|---|---|---|
| `DriftSeverity.Classify` | drift_monitoring_example.py:95-106 | NONE exactly when nothing drifted or there are no features; LOW only when 5·count < total; HIGH only when 2·count ≥ total |
| `DriftSeverity.ClassifyMatchesRatio` | drift_monitoring_example.py:96-106 | for every count and total, the integer cross-multiplication gives the same severity as the source's test on the ratio `count/total` (0 when total is 0), boundaries included |
| `DriftSeverity.ClassifyMonotone` | drift_monitoring_example.py:97-106 | more drifted features never give a lower severity |
| `DriftSeverity.ClassifyBoundaries` | drift_monitoring_example.py:99-106 | 1 of 5 is MODERATE, 3 of 6 and 3 of 5 are HIGH, 1 of 6 is LOW, 0 of 5 and 0 of 0 are NONE |
| `FeatureScan.Scan` | drift_monitoring_example.py:62-93 | the loop keeps one statistic per non-skipped key; a key is listed iff its statistic is flagged; the list has no duplicates and follows key order; the list is no longer than the statistics, and they are no longer than the keys |
| `OrderedMaps.InOrderOfUnique` | drift_monitoring_example.py:62-93 | two lists that follow the key order and hold the same elements are equal, so "these keys, in key order" names exactly one list |
| `DriftChecks.DriftListIsDetermined` | drift_monitoring_example.py:62-93 | any list holding exactly the drifted features in baseline order is the `features_with_drift` the simple check reports |
| `DriftChecks.ShiftScale` | drift_monitoring_example.py:75-76 | the divisor `abs(std) + 1e-10` is positive, so a zero baseline spread never divides by zero |
| `DriftChecks.MeanChange` | drift_monitoring_example.py:75 | the relative mean change is non-negative and zero exactly when the means are equal |
| `DriftChecks.StdChange` | drift_monitoring_example.py:76 | the relative spread change is non-negative and zero exactly when the spreads are equal |
| `DriftChecks.CheckDriftSimple` | drift_monitoring_example.py:37-108 | statistics cover exactly the baseline features present in the data; a feature is listed iff either change strictly exceeds the threshold; its `drift_detected` entry agrees with the list; the list has no duplicates and follows baseline order; `drift_detected` iff the list is non-empty; severity grades the count against all baseline features |
| `DriftChecks.CheckDriftKsTest` | drift_monitoring_example.py:111-168 | statistics cover exactly the reference columns present in the data and record the test's statistic and p-value; a feature is listed iff `p_value < threshold`, which is also its `drift_detected`; same list, order, detection and severity invariants as the simple check |
| `DriftChecks.UnchangedNotShifted` | drift_monitoring_example.py:89 | with a non-negative threshold, current moments equal to the baseline's never drift, whatever the baseline spread |
| `DriftChecks.ShiftedMonotone` | drift_monitoring_example.py:75-89 | moving the current mean further from the baseline mean keeps a drifted feature drifted |
| `DriftChecks.UnchangedDataNoDrift` | drift_monitoring_example.py:62-106 | data whose shared features all match the baseline moments gives no drift and severity NONE |
| `DriftChecks.MissingFeatureCountsInDenominator` | drift_monitoring_example.py:62-97 | a feature absent from the data is not listed but still counts in the denominator: one drifted of two baseline features is HIGH |
| `LegacyDrift.Divide` | phishing_model_artefacts/drift_monitoring_example.py:51-52 | the quotient is finite iff the divisor is non-zero, non-positive for a negative divisor, and times the divisor gives back the numerator; a zero divisor gives +inf iff the numerator is positive and NaN iff it is zero |
| `LegacyDrift.CheckDrift` | phishing_model_artefacts/drift_monitoring_example.py:13-66 | statistics cover exactly the baseline features present in the data; a feature is listed iff either change exceeds the fixed 0.5, whatever the threshold argument; no duplicates, baseline order; `drift_detected` iff the list is non-empty; no severity |
| `LegacyDrift.LegacyAgreesOnNonNegativeStd` | phishing_model_artefacts/drift_monitoring_example.py:51-62 | for a non-negative baseline spread the legacy flag equals the simple check's flag at threshold 0.5 |
| `LegacyDrift.NegativeStdNeverFlagged` | phishing_model_artefacts/drift_monitoring_example.py:51-62 | a baseline spread below -1e-10 is never flagged, however far the data moved |
| `LegacyDrift.LegacyDiffersFromSimple` | phishing_model_artefacts/drift_monitoring_example.py:51-52 | an input the simple check flags and the legacy check does not |
| `LegacyDrift.ZeroDivisorCases` | phishing_model_artefacts/drift_monitoring_example.py:51-62 | with a zero divisor, any mean move is an infinite change and flagged; an unmoved feature gives NaN and is not flagged |
| `PerformanceDecay.DecayPercentage` | drift_monitoring_example.py:199-200 | 0 when the baseline value is not positive (no fault); otherwise it times the baseline is the decay, it is positive iff the metric fell, and it is at most 1 for a non-negative current value |
| `PerformanceDecay.CheckPerformanceDecay` | drift_monitoring_example.py:171-214 | reads the loaded baseline's `performance_baseline`; comparisons cover exactly the current metrics it has; a metric is listed iff its decay percentage strictly exceeds the threshold, which is also its `threshold_exceeded`; no duplicates, current-metrics order; `decay_detected` iff the list is non-empty |
| `PerformanceDecay.NonPositiveBaselineNotFlagged` | drift_monitoring_example.py:200-210 | a metric with a baseline value of zero or less is never flagged under a non-negative threshold |
| `Retraining.MaxDecayOver` | drift_monitoring_example.py:260-263 | the result bounds every compared metric's decay percentage and is one of them |
| `Retraining.AssessDrift` | drift_monitoring_example.py:235-254 | the drift half gives at most one reason, never a decay reason; it asks for retraining iff its urgency is MEDIUM or URGENT; its urgency is NONE iff it is the initial recommendation |
| `Retraining.ApplyDecay` | drift_monitoring_example.py:256-272 | without decay nothing changes; with decay, retraining is advised, exactly one decay reason carrying the maximum decay is appended after the earlier ones, and the urgency never drops; severe decay (above 0.15) appends the severe-decay reason and makes it URGENT with "Retrain immediately"; mild decay appends the plain decay reason, keeps the action and raises the urgency to MEDIUM only from NONE |
| `Retraining.ShouldRetrain` | drift_monitoring_example.py:217-274 | `should_retrain` iff detected drift is MODERATE or HIGH or decay was detected; URGENT iff HIGH drift or maximum decay above 0.15; LOW iff LOW drift without severe decay; NONE iff nothing triggered, and then it is the initial recommendation; at most two reasons, a decay reason last exactly when decay was detected |
| `Retraining.DriftOnlyTable` | drift_monitoring_example.py:228-254 | without decay, HIGH, MODERATE and LOW drift give exactly the source's rows (urgency, one reason with the feature count, action); no detected drift gives "Continue monitoring" |
| `Retraining.LowDriftMildDecayStaysLow` | drift_monitoring_example.py:251-272 | LOW drift plus decay of at most 15% advises retraining but stays at urgency LOW with the low-drift action, and the reasons are the drift one then the decay one |
| `Retraining.MildDecayAloneKeepsDefaultAction` | drift_monitoring_example.py:228-272 | mild decay without drift gives retraining at MEDIUM with the action still "Continue monitoring" |
| `Retraining.SevereDecayOverrides` | drift_monitoring_example.py:265-268 | decay above 15% gives URGENT and "Retrain immediately" whatever the drift, with its reason after the drift reason |
| `Retraining.CheckedDecayIsWellFormed` | drift_monitoring_example.py:257-263 | every result of the decay check that reports decay has a non-empty comparison, so the `max` is defined |
| `Retraining.CheckedDriftIsGraded` | drift_monitoring_example.py:90-106 | on a simple-check result, `drift_detected` holds iff the severity is not NONE |
| `Retraining.SevereDecayScenario` | drift_monitoring_example.py:194-268 | accuracy falling from 0.9 to 0.72 without drift gives URGENT, one severe-decay reason of 20% and "Retrain immediately" |
| `Text.Find` | api.py:85 | the first occurrence of a pattern, or none exactly when it occurs nowhere |
| `Text.Contains` | api.py:106 | Python's substring `in`: true iff the pattern occurs at some index |
| `Text.Lower` | api.py:98 | ASCII `lower()`: same length; each upper-case letter becomes the lower-case letter at the same position of the alphabet, and every other character is kept |
| `Text.CountChar` | api.py:110 | `count('.')` equals the character's multiplicity in the text |
| `Text.Strip` | api.py:150 | `strip()`: a slice with only whitespace around it, not starting or ending in whitespace, and empty iff the text is all whitespace |
| `UrlFeatures.AnyDigit` | api.py:78 | true iff some character is an ASCII digit |
| `UrlFeatures.AbnormalUrl` | api.py:77-82 | 1 iff one of the first 20 characters is a digit or the text is longer than 100, else 0 |
| `UrlFeatures.PrefixSuffix` | api.py:85 | with a `//`, 1 iff a `-` lies before the first `//`; without, 1 iff a `-` lies among the first 30 characters; else 0 |
| `UrlFeatures.SslFinalState` | api.py:89-94 | 1 iff the text starts with `https://`, -1 iff it starts with `http://`, 0 iff neither |
| `UrlFeatures.AnyShortener` | api.py:98 | true iff one of the listed names occurs in the text |
| `UrlFeatures.ShortiningService` | api.py:97-98 | 1 iff one of the eight shortener names occurs in the lower-cased text, else 0 |
| `UrlFeatures.HavingAtSymbol` | api.py:101 | 1 iff an `@` occurs anywhere, else 0 |
| `UrlFeatures.HostPart` | api.py:105-107 | the whole text when there is no `//`; otherwise the slash-free slice starting right after the first `//` that runs to the next `/` or the end |
| `UrlFeatures.HavingSubDomain` | api.py:105-116 | in {0, 1, 2}: 0 iff the host segment has at most one dot, 1 iff exactly two, 2 iff three or more |
| `UrlFeatures.ExtractFeatures` | api.py:55-120 | every feature lies in its documented range: {0,1}, and {-1,0,1} for SSL, {0,1,2} for sub-domains |
| `UrlFeatures.ShortenerIgnoresCase` | api.py:98 | lower-casing the text first does not change the shortener feature |
| `UrlFeatures.UpperCaseShortenerFound` | api.py:97-98 | `HTTP://BIT.LY/A` is flagged as a shortened link, because the search runs on the lower-cased text |
| `UrlFeatures.SubstringShortenerMatch` | api.py:97-98 | the test is a substring search: `https://microsoft.com` counts as shortened because it contains `t.co` |
| `PredictionApi.RiskLevelOf` | api.py:169-175 | the level and its label are "low" iff p < 0.3, "medium" iff 0.3 ≤ p < 0.7, "high" iff p ≥ 0.7 |
| `PredictionApi.RiskLevelMonotone` | api.py:169-175 | a higher phishing probability never gives a lower risk level |
| `PredictionApi.PredictionLabel` | api.py:180 | "phishing" iff the prediction is 1, otherwise "legitimate" |
| `PredictionApi.AnalyzedText` | api.py:188 | at most 103 characters; the text itself when it has at most 100; otherwise its first 100 characters and `...`; equal to the text iff it has at most 100 characters or is a 103-character text ending in `...` |
| `PredictionApi.Predict` | api.py:141-201 | for a parsed JSON body, status 400 exactly for a missing `text` or one that is empty after `strip()`; status 500 exactly for a non-string `text` or a failing classifier; status 200 exactly for a success; otherwise the features are those of the stripped text and the body carries the classifier's verdict, the label "phishing" for class 1 and "legitimate" for any other class, the risk level and the truncated text |
| `PredictionApi.RejectionIgnoresClassifier` | api.py:143-153 | a rejected request gets the same response whatever the classifier: it is rejected before features are extracted |
| `PredictionApi.WhitespaceOnlyIsEmpty` | api.py:150-153 | text made only of whitespace is rejected as empty |

## Left out

- Baseline loading (`load_baseline`, and the baseline read inside `check_performance_decay`) is file I/O. The baseline is a parameter.
- `generate_drift_report` assembles the results with a timestamp and writes JSON to a file. Its only decision is `should_retrain`, which is modelled; the record assembly and the write are I/O.
- A malformed baseline (missing `feature_statistics`, `mean`, `std` or `performance_baseline`) raises `KeyError` in the source. The model takes the well-formed shape as its input type.
- pandas `mean()` / `std()`, NaN dropping and scipy `ks_2samp` are floating-point library calls. Their results are inputs (`Moments`, `KsOutcome`). A NaN mean or p-value is not modelled.
- `DriftChecks.CheckDriftSimple` and `LegacyDrift.CheckDrift`: pandas `std()` uses one degree of freedom, so a one-row batch has a NaN standard deviation (drift_monitoring_example.py:72, phishing_model_artefacts/drift_monitoring_example.py:45). Its std change is then NaN and the std test never fires. `Moments.std` is a `real` and cannot carry that NaN.
- `DriftChecks.CheckDriftKsTest`: a column that is empty after `dropna()` (drift_monitoring_example.py:139-142) makes `ks_2samp` raise `ValueError` in older scipy and return NaN in newer scipy. The total `ksTest` parameter models neither.
- Default thresholds are named constants (`DriftChecks.DefaultShiftThreshold`, `DriftChecks.DefaultPValueThreshold`, `PerformanceDecay.DefaultDecayThreshold`, `LegacyDrift.LegacyDefaultThreshold`). Every check still takes the threshold as a parameter, as the source's keyword argument allows.
- Floating point in general. Ratios are exact reals, which changes no decision for realistic feature counts. `LegacyDrift` keeps float64's infinity and NaN where its divisor can be zero.
- The `datetime.now()` timestamps do not affect any decision.
- `DriftChecks.CheckDriftKsTest`: a DataFrame with duplicate column names is excluded by its requires (`NoDuplicates`), because the source's per-column indexing then stops returning a single series.
- `Retraining.ShouldRetrain`: reasons are modelled by kind, with the feature count or the maximum decay percentage. The `{max_decay*100:.1f}` text formatting is not modelled.
- The Flask application is HTTP plumbing. This covers routes, CORS, loading the model, scaler, feature list and metrics, `/health` and `/info`. The scaler and the classifier (`predict_proba`, `predict`) are one opaque parameter of `PredictionApi.Predict`.
- `PredictionApi.Predict`: `round(…, 4)` of the confidence and probability is not modelled. The classifier's column order, which comes from the feature list file, belongs to the opaque classifier. A JSON body that is not an object is not modelled.
- `PredictionApi.Predict`: a body that is not JSON at all is not modelled. With Werkzeug 2.1 or later, `request.json` at api.py:143 raises a 400 or 415 error inside the `try`, and the `except Exception` at api.py:196-201 turns it into a 500. Older Flask versions return `None` there, which gives the 400 at api.py:144-148. The model starts from a parsed JSON body, where a missing `text` is always a 400.
- `train_and_export_model.py` (dataset download and model fitting) is not part of this model. Neither are `verify_installation.py` (import checks), `test_api.py` (a network client) or the web UI under `urlytics-web/`.
- The `__main__` demo with random data in `drift_monitoring_example.py` is not modelled.
- Unicode behaviour of `isdigit`, `lower` and `strip` is not modelled. Text is restricted to ASCII.

=== FILE: drift_checks.dfy ===
/** The two drift checks of drift_monitoring_example.py.

    `check_drift_simple` compares the mean and standard deviation of each
    current feature column with the baseline's; `check_drift_ks_test` reads
    the p-value of a two-sample Kolmogorov-Smirnov test per column. Both
    walk the reference features in order, skip the ones the current data
    lacks, and grade the share of drifted features into a severity.

    The column means, standard deviations and KS outcomes are computed by
    pandas and scipy in the source; here they are inputs. */
module DriftChecks {
  import opened Wrappers
  import opened OrderedMaps
  import opened FeatureScan
  import opened DriftSeverity

  /** The guard added to every divisor so that a zero standard deviation
      does not divide by zero. */
  const Epsilon: real := 0.0000000001

  /** The default `threshold` of `check_drift_simple`: a relative change
      of more than half the baseline spread is drift. */
  const DefaultShiftThreshold: real := 0.5

  /** The default `threshold` of `check_drift_ks_test`: the significance
      level below which a p-value means drift. */
  const DefaultPValueThreshold: real := 0.05

  /** A column's mean and standard deviation. */
  datatype Moments = Moments(mean: real, std: real)

  /** The baseline file's content: per-feature moments in file order, and
      the performance metrics measured at training time. */
  datatype Baseline = Baseline(featureStatistics: OrderedMap<Moments>, performanceBaseline: map<string, real>)

  function Abs(x: real): real {
    if x < 0.0 then -x else x
  }

  /** The guarded divisor of the simple check: never zero. */
  function ShiftScale(baseline: Moments): (d: real)
    ensures d > 0.0
  {
    Abs(baseline.std) + Epsilon
  }

  /** How far the current mean moved, in units of the baseline spread. */
  function MeanChange(baseline: Moments, current: Moments): (c: real)
    ensures c >= 0.0
    ensures c == 0.0 <==> current.mean == baseline.mean
  {
    var d := ShiftScale(baseline);
    var n := Abs(current.mean - baseline.mean);
    assert (n / d) * d == n;
    n / d
  }

  /** How far the current spread moved, in units of the baseline spread. */
  function StdChange(baseline: Moments, current: Moments): (c: real)
    ensures c >= 0.0
    ensures c == 0.0 <==> current.std == baseline.std
  {
    var d := ShiftScale(baseline);
    var n := Abs(current.std - baseline.std);
    assert (n / d) * d == n;
    n / d
  }

  /** A feature drifts when either relative change strictly exceeds the
      threshold. */
  predicate Shifted(baseline: Moments, current: Moments, threshold: real) {
    MeanChange(baseline, current) > threshold || StdChange(baseline, current) > threshold
  }

  /** The per-feature entry of the simple check's `statistics`. */
  datatype ShiftStats = ShiftStats(
    baselineMean: real, currentMean: real, meanChange: real,
    baselineStd: real, currentStd: real, stdChange: real,
    driftDetected: bool)

  function ShiftDetail(baseline: Moments, current: Moments, threshold: real): ShiftStats {
    ShiftStats(
      baseline.mean, current.mean, MeanChange(baseline, current),
      baseline.std, current.std, StdChange(baseline, current),
      Shifted(baseline, current, threshold))
  }

  /** The result of either drift check. `statistics` holds the simple
      check's `ShiftStats` or the KS check's `KsStats`. */
  datatype DriftResult<S> = DriftResult(
    driftDetected: bool,
    featuresWithDrift: seq<string>,
    statistics: OrderedMap<S>,
    severity: Severity)

  /** Turns the scan into a result graded against `totalFeatures`. */
  function Summarize<S>(scan: ScanResult<S>, totalFeatures: nat): DriftResult<S> {
    DriftResult(|scan.flagged| > 0, scan.flagged, scan.stats, Classify(|scan.flagged|, totalFeatures))
  }

  /** `check_drift_simple` with the baseline passed in and the current data
      given as the moments of its columns (its key set is the column set). */
  function CheckDriftSimple(baseline: Baseline, current: map<string, Moments>, threshold: real): (r: DriftResult<ShiftStats>)
    requires baseline.featureStatistics.Valid()
    ensures r.statistics.Valid()
    ensures forall f :: f in r.statistics.entries <==> f in baseline.featureStatistics.keys && f in current
    ensures forall f :: f in r.statistics.entries ==>
              r.statistics.entries[f] == ShiftDetail(baseline.featureStatistics.entries[f], current[f], threshold)
    ensures forall f :: f in r.featuresWithDrift <==>
              f in baseline.featureStatistics.keys && f in current
              && Shifted(baseline.featureStatistics.entries[f], current[f], threshold)
    ensures forall f :: f in r.statistics.entries ==> (r.statistics.entries[f].driftDetected <==> f in r.featuresWithDrift)
    ensures NoDuplicates(r.featuresWithDrift)
    ensures InOrderOf(r.featuresWithDrift, baseline.featureStatistics.keys)
    ensures InOrderOf(r.statistics.keys, baseline.featureStatistics.keys)
    ensures r.driftDetected <==> |r.featuresWithDrift| > 0
    ensures |r.featuresWithDrift| <= |baseline.featureStatistics.keys|
    ensures r.severity == Classify(|r.featuresWithDrift|, |baseline.featureStatistics.keys|)
  {
    var stats := baseline.featureStatistics;
    var scan := Scan(
      stats.keys,
      f => if f in current && f in stats.entries then Some(ShiftDetail(stats.entries[f], current[f], threshold)) else Option.None,
      (s: ShiftStats) => s.driftDetected);
    Summarize(scan, |stats.keys|)
  }

  /** What scipy's `ks_2samp` returned for one feature. */
  datatype KsOutcome = KsOutcome(statistic: real, pValue: real)

  /** The per-feature entry of the KS check's `ks_statistics`. */
  datatype KsStats = KsStats(ksStatistic: real, pValue: real, driftDetected: bool)

  function KsDetail(outcome: KsOutcome, threshold: real): KsStats {
    KsStats(outcome.statistic, outcome.pValue, outcome.pValue < threshold)
  }

  /** `check_drift_ks_test`: `baselineColumns` are the reference sample's
      columns in order, `newColumns` the current data's, and `ksTest` the
      test outcome for a column present in both. */
  function CheckDriftKsTest(baselineColumns: seq<string>, newColumns: set<string>, ksTest: string -> KsOutcome, threshold: real): (r: DriftResult<KsStats>)
    requires NoDuplicates(baselineColumns)
    ensures r.statistics.Valid()
    ensures forall f :: f in r.statistics.entries <==> f in baselineColumns && f in newColumns
    ensures forall f :: f in r.statistics.entries ==>
              r.statistics.entries[f].pValue == ksTest(f).pValue
              && r.statistics.entries[f].ksStatistic == ksTest(f).statistic
              && (r.statistics.entries[f].driftDetected <==> ksTest(f).pValue < threshold)
    ensures forall f :: f in r.featuresWithDrift <==> f in baselineColumns && f in newColumns && ksTest(f).pValue < threshold
    ensures NoDuplicates(r.featuresWithDrift)
    ensures InOrderOf(r.featuresWithDrift, baselineColumns)
    ensures InOrderOf(r.statistics.keys, baselineColumns)
    ensures r.driftDetected <==> |r.featuresWithDrift| > 0
    ensures |r.featuresWithDrift| <= |baselineColumns|
    ensures r.severity == Classify(|r.featuresWithDrift|, |baselineColumns|)
  {
    var scan := Scan(
      baselineColumns,
      f => if f in newColumns then Some(KsDetail(ksTest(f), threshold)) else Option.None,
      (s: KsStats) => s.driftDetected);
    Summarize(scan, |baselineColumns|)
  }

  /** Current moments equal to the baseline's never drift (for a
      non-negative threshold), whatever the baseline spread, zero included. */
  lemma UnchangedNotShifted(baseline: Moments, threshold: real)
    requires threshold >= 0.0
    ensures !Shifted(baseline, baseline, threshold)
  {
  }

  /** A current mean further from the baseline mean keeps a drifted
      feature drifted. */
  lemma ShiftedMonotone(baseline: Moments, near: Moments, far: Moments, threshold: real)
    requires Abs(near.mean - baseline.mean) <= Abs(far.mean - baseline.mean)
    requires near.std == far.std
    requires Shifted(baseline, near, threshold)
    ensures Shifted(baseline, far, threshold)
  {
    var d := ShiftScale(baseline);
    DivMonotone(Abs(near.mean - baseline.mean), Abs(far.mean - baseline.mean), d);
    assert StdChange(baseline, near) == StdChange(baseline, far);
  }

  /** Dividing by the same positive amount keeps the order. */
  lemma DivMonotone(a: real, b: real, d: real)
    requires a <= b && d > 0.0
    ensures a / d <= b / d
  {
    var qa, qb := a / d, b / d;
    assert qa * d == a && qb * d == b;
  }

  /** A batch whose every shared feature has exactly the baseline moments
      reports no drift and severity NONE. */
  lemma {:induction false} UnchangedDataNoDrift(baseline: Baseline, current: map<string, Moments>, threshold: real)
    requires baseline.featureStatistics.Valid()
    requires threshold >= 0.0
    requires forall f :: f in current && f in baseline.featureStatistics.entries ==> current[f] == baseline.featureStatistics.entries[f]
    ensures !CheckDriftSimple(baseline, current, threshold).driftDetected
    ensures CheckDriftSimple(baseline, current, threshold).severity == Severity.None
  {
    var r := CheckDriftSimple(baseline, current, threshold);
    if |r.featuresWithDrift| > 0 {
      var f := r.featuresWithDrift[0];
      UnchangedNotShifted(baseline.featureStatistics.entries[f], threshold);
      assert false;
    }
  }

  /** A feature absent from the current data is never listed, yet it still
      counts in the severity denominator: with one baseline feature missing
      and the other drifted, the ratio is 1/2 and the severity HIGH. */
  lemma MissingFeatureCountsInDenominator()
    ensures var baseline := Baseline(OrderedMap(["f1", "f2"], map["f1" := Moments(10.0, 2.0), "f2" := Moments(5.0, 1.0)]), map[]);
            var r := CheckDriftSimple(baseline, map["f1" := Moments(20.0, 2.0)], DefaultShiftThreshold);
            r.featuresWithDrift == ["f1"] && r.severity == Severity.High
  {
  }

  /** The list of drifted features is fully determined: any list holding
      exactly the drifted features, in baseline order, is the one the check
      reports. */
  lemma DriftListIsDetermined(baseline: Baseline, current: map<string, Moments>, threshold: real, list: seq<string>)
    requires baseline.featureStatistics.Valid()
    requires InOrderOf(list, baseline.featureStatistics.keys)
    requires forall f :: f in list <==>
               f in baseline.featureStatistics.keys && f in current
               && Shifted(baseline.featureStatistics.entries[f], current[f], threshold)
    ensures list == CheckDriftSimple(baseline, current, threshold).featuresWithDrift
  {
    var r := CheckDriftSimple(baseline, current, threshold);
    InOrderOfUnique(list, r.featuresWithDrift, baseline.featureStatistics.keys);
  }
}

=== FILE: drift_severity.dfy ===
/** The severity bucket both drift checks of drift_monitoring_example.py put
    on their result: the share of baseline features that drifted, cut at
    0.2 and 0.5. */
module DriftSeverity {

  datatype Severity = None | Low | Moderate | High

  /** The total order NONE < LOW < MODERATE < HIGH. */
  function Rank(s: Severity): nat {
    match s
    case None => 0
    case Low => 1
    case Moderate => 2
    case High => 3
  }

  /** `drift_count / total_features`, and 0 when there are no features. */
  function DriftRatio(driftCount: nat, totalFeatures: nat): real {
    if totalFeatures > 0 then driftCount as real / totalFeatures as real else 0.0
  }

  /** The source's if-chain on the ratio, as written there. */
  function ClassifyRatio(ratio: real): Severity {
    if ratio == 0.0 then Severity.None
    else if ratio < 0.2 then Severity.Low
    else if ratio < 0.5 then Severity.Moderate
    else Severity.High
  }

  /** The severity of `driftCount` drifted features out of `totalFeatures`,
      decided by integer cross-multiplication. */
  function Classify(driftCount: nat, totalFeatures: nat): (s: Severity)
    ensures s == Severity.None <==> driftCount == 0 || totalFeatures == 0
    ensures s == Severity.High ==> 2 * driftCount >= totalFeatures
    ensures s == Severity.Low ==> 5 * driftCount < totalFeatures
  {
    if totalFeatures == 0 || driftCount == 0 then Severity.None
    else if 5 * driftCount < totalFeatures then Severity.Low
    else if 2 * driftCount < totalFeatures then Severity.Moderate
    else Severity.High
  }

  /** For a positive denominator, `c / t < n / d` exactly when `d * c < n * t`. */
  lemma RatioBelow(c: nat, t: nat, n: nat, d: nat)
    requires t > 0 && d > 0
    ensures (c as real / t as real < n as real / d as real) <==> d * c < n * t
  {
  }

  /** The integer classification agrees with the source's ratio test on
      every count and total, boundaries included. */
  lemma ClassifyMatchesRatio(driftCount: nat, totalFeatures: nat)
    ensures Classify(driftCount, totalFeatures) == ClassifyRatio(DriftRatio(driftCount, totalFeatures))
  {
    if totalFeatures > 0 {
      var ratio := DriftRatio(driftCount, totalFeatures);
      RatioBelow(driftCount, totalFeatures, 1, 5);
      RatioBelow(driftCount, totalFeatures, 1, 2);
      assert 1 as real / 5 as real == 0.2;
      assert 1 as real / 2 as real == 0.5;
      assert ratio == 0.0 <==> driftCount == 0 by {
        assert ratio * totalFeatures as real == driftCount as real;
      }
    }
  }

  /** More drifted features never lower the severity. */
  lemma ClassifyMonotone(c1: nat, c2: nat, totalFeatures: nat)
    requires c1 <= c2
    ensures Rank(Classify(c1, totalFeatures)) <= Rank(Classify(c2, totalFeatures))
  {
  }

  /** The boundary cases: a ratio of exactly 0.2 is MODERATE, exactly 0.5
      is HIGH, and no features at all is NONE. */
  lemma ClassifyBoundaries()
    ensures Classify(1, 5) == Severity.Moderate
    ensures Classify(3, 6) == Severity.High
    ensures Classify(3, 5) == Severity.High
    ensures Classify(1, 6) == Severity.Low
    ensures Classify(0, 5) == Severity.None
    ensures Classify(0, 0) == Severity.None
  {
  }
}

=== FILE: feature_scan.dfy ===
/** The loop shared by every check of the drift monitor: walk the keys of
    the reference dict in order, skip the ones the current data lacks,
    record a per-key statistic for the others and list the keys whose
    statistic is flagged. */
module FeatureScan {
  import opened Wrappers
  import opened OrderedMaps

  /** What the loop has built: the flagged keys in visiting order, and the
      per-key statistics dict. */
  datatype ScanResult<S> = ScanResult(flagged: seq<string>, stats: OrderedMap<S>)

  /** Visits `keys` in order. `detail(k)` is `None` for a key the loop skips
      and otherwise the statistic recorded for it; `flagged(s)` says whether
      that statistic marks drift (or decay). */
  function Scan<S>(keys: seq<string>, detail: string -> Option<S>, flagged: S -> bool): (r: ScanResult<S>)
    requires NoDuplicates(keys)
    ensures r.stats.Valid()
    ensures forall k :: k in r.stats.entries <==> k in keys && detail(k).Some?
    ensures forall k :: k in r.stats.entries ==> detail(k) == Some(r.stats.entries[k])
    ensures forall k :: k in r.flagged <==> k in r.stats.entries && flagged(r.stats.entries[k])
    ensures NoDuplicates(r.flagged)
    ensures InOrderOf(r.flagged, keys)
    ensures InOrderOf(r.stats.keys, keys)
    ensures |r.flagged| <= |r.stats.keys| <= |keys|
    decreases |keys|
  {
    if |keys| == 0 then
      ScanResult([], OrderedMap([], map[]))
    else
      var last := keys[|keys| - 1];
      var prefix := keys[..|keys| - 1];
      assert keys == prefix + [last];
      var acc := Scan(prefix, detail, flagged);
      match detail(last)
      case None =>
        InOrderOfAppend(acc.flagged, prefix, last);
        InOrderOfAppend(acc.stats.keys, prefix, last);
        acc
      case Some(s) =>
        InOrderOfAppend(acc.flagged, prefix, last);
        InOrderOfAppend(acc.stats.keys, prefix, last);
        var stats := OrderedMap(acc.stats.keys + [last], acc.stats.entries[last := s]);
        InOrderOfNoDuplicates(stats.keys, keys);
        if flagged(s) then
          InOrderOfNoDuplicates(acc.flagged + [last], keys);
          ScanResult(acc.flagged + [last], stats)
        else
          ScanResult(acc.flagged, stats)
  }
}

=== FILE: legacy_drift.dfy ===
/** `check_drift` of phishing_model_artefacts/drift_monitoring_example.py:
    the older moment-shift check. It divides by the baseline standard
    deviation plus 1e-10 without taking its absolute value, compares with a
    fixed 0.5 whatever threshold it is given, and grades no severity.

    Because the divisor can be zero or negative here, a change is a numpy
    float64 quotient: dividing a positive amount by zero gives infinity,
    zero by zero gives NaN, and NaN compares false with everything. */
module LegacyDrift {
  import opened Wrappers
  import opened OrderedMaps
  import opened FeatureScan
  import opened DriftChecks

  /** The fixed cut-off of the legacy check. */
  const Cutoff: real := 0.5

  /** The default `threshold` of the legacy `check_drift`, which its body
      never reads. */
  const LegacyDefaultThreshold: real := 0.05

  /** A float64 quotient of a non-negative numerator. */
  datatype Quotient = Finite(value: real) | PosInfinity | NaN

  /** `num / den` for `num >= 0`, with numpy's division-by-zero results. */
  function Divide(num: real, den: real): (q: Quotient)
    requires num >= 0.0
    ensures q.Finite? <==> den != 0.0
    ensures q.Finite? && den < 0.0 ==> q.value <= 0.0
    ensures q.Finite? ==> q.value * den == num
    ensures den == 0.0 ==> (q == PosInfinity <==> num > 0.0)
    ensures den == 0.0 ==> (q == NaN <==> num == 0.0)
  {
    if den != 0.0 then Finite(num / den)
    else if num > 0.0 then PosInfinity
    else NaN
  }

  /** `q > bound` on float64 values. */
  predicate Exceeds(q: Quotient, bound: real) {
    match q
    case Finite(v) => v > bound
    case PosInfinity => true
    case NaN => false
  }

  function LegacyMeanChange(baseline: Moments, current: Moments): Quotient {
    Divide(Abs(current.mean - baseline.mean), baseline.std + Epsilon)
  }

  function LegacyStdChange(baseline: Moments, current: Moments): Quotient {
    Divide(Abs(current.std - baseline.std), baseline.std + Epsilon)
  }

  /** The legacy drift test: either change above the fixed cut-off. */
  predicate LegacyShifted(baseline: Moments, current: Moments) {
    Exceeds(LegacyMeanChange(baseline, current), Cutoff) || Exceeds(LegacyStdChange(baseline, current), Cutoff)
  }

  /** The per-feature entry of the legacy `statistics`: it records no
      standard deviations and no drift flag. */
  datatype LegacyStats = LegacyStats(baselineMean: real, currentMean: real, meanChange: Quotient, stdChange: Quotient)

  function LegacyDetail(baseline: Moments, current: Moments): LegacyStats {
    LegacyStats(baseline.mean, current.mean, LegacyMeanChange(baseline, current), LegacyStdChange(baseline, current))
  }

  /** The legacy result: no severity, no timestamp. */
  datatype LegacyResult = LegacyResult(driftDetected: bool, featuresWithDrift: seq<string>, statistics: OrderedMap<LegacyStats>)

  /** `check_drift` with the baseline passed in. `threshold` is accepted
      and, as in the source, never read. */
  function CheckDrift(baseline: Baseline, current: map<string, Moments>, threshold: real): (r: LegacyResult)
    requires baseline.featureStatistics.Valid()
    ensures r.statistics.Valid()
    ensures forall f :: f in r.statistics.entries <==> f in baseline.featureStatistics.keys && f in current
    ensures forall f :: f in r.statistics.entries ==>
              r.statistics.entries[f] == LegacyDetail(baseline.featureStatistics.entries[f], current[f])
    ensures forall f :: f in r.featuresWithDrift <==>
              f in baseline.featureStatistics.keys && f in current
              && LegacyShifted(baseline.featureStatistics.entries[f], current[f])
    ensures NoDuplicates(r.featuresWithDrift)
    ensures InOrderOf(r.featuresWithDrift, baseline.featureStatistics.keys)
    ensures InOrderOf(r.statistics.keys, baseline.featureStatistics.keys)
    ensures r.driftDetected <==> |r.featuresWithDrift| > 0
  {
    var stats := baseline.featureStatistics;
    var scan := Scan(
      stats.keys,
      f => if f in current && f in stats.entries then Some(LegacyDetail(stats.entries[f], current[f])) else Option.None,
      (s: LegacyStats) => Exceeds(s.meanChange, Cutoff) || Exceeds(s.stdChange, Cutoff));
    LegacyResult(|scan.flagged| > 0, scan.flagged, scan.stats)
  }

  /** Where the baseline spread is non-negative, the legacy check flags a
      feature exactly when the simple check with threshold 0.5 does. */
  lemma LegacyAgreesOnNonNegativeStd(baseline: Moments, current: Moments)
    requires baseline.std >= 0.0
    ensures LegacyShifted(baseline, current) <==> Shifted(baseline, current, Cutoff)
  {
  }

  /** A baseline spread below -1e-10 makes every quotient non-positive, so
      the legacy check never flags that feature, however far it moved. */
  lemma NegativeStdNeverFlagged(baseline: Moments, current: Moments)
    requires baseline.std + Epsilon < 0.0
    ensures !LegacyShifted(baseline, current)
  {
  }

  /** The two checks part ways: a negative baseline spread hides a large
      mean shift from the legacy check but not from the simple one. */
  lemma LegacyDiffersFromSimple()
    ensures Shifted(Moments(0.0, -1.0), Moments(5.0, -1.0), Cutoff)
    ensures !LegacyShifted(Moments(0.0, -1.0), Moments(5.0, -1.0))
  {
  }

  /** A baseline spread of exactly -1e-10 zeroes the divisor: any move of
      the mean is an infinite change and is flagged, and an unmoved feature
      yields NaN and is not. */
  lemma ZeroDivisorCases(mean: real, current: Moments)
    ensures current.mean != mean ==> LegacyShifted(Moments(mean, -Epsilon), current)
    ensures current == Moments(mean, -Epsilon) ==> !LegacyShifted(Moments(mean, -Epsilon), current)
  {
  }
}

=== FILE: ordered_maps.dfy ===
/** Insertion-ordered dictionaries.

    The drift monitor iterates Python dicts (the baseline's feature
    statistics, the current metrics) and builds new ones; the order in which
    it visits their keys is the order of the lists it reports. An
    `OrderedMap` keeps that order next to the lookup table. */
module OrderedMaps {

  /** No element occurs twice, as in the key list of a dict. */
  predicate NoDuplicates<T(==)>(s: seq<T>) {
    forall i, j :: 0 <= i < j < |s| ==> s[i] != s[j]
  }

  /** Index of the first occurrence of `x` in `s`. */
  function Position<T(==)>(s: seq<T>, x: T): (i: nat)
    requires x in s
    ensures i < |s| && s[i] == x
    ensures x !in s[..i]
  {
    if s[0] == x then 0
    else
      var i := 1 + Position(s[1..], x);
      assert s[..i] == [s[0]] + s[1..][..i - 1];
      i
  }

  /** Every element of `sub` occurs in `s`, and `sub` lists them in the
      order in which they occur in `s`. */
  predicate InOrderOf<T(==)>(sub: seq<T>, s: seq<T>) {
    && (forall i :: 0 <= i < |sub| ==> sub[i] in s)
    && (forall i, j :: 0 <= i < j < |sub| ==> Position(s, sub[i]) < Position(s, sub[j]))
  }

  /** A dict with string keys: its keys in insertion order and its table. */
  datatype OrderedMap<V> = OrderedMap(keys: seq<string>, entries: map<string, V>) {

    ghost predicate Valid() {
      && NoDuplicates(keys)
      && (forall k :: k in entries <==> k in keys)
    }
  }

  /** Appending a new element does not move the elements already there. */
  lemma {:induction false} PositionAppend<T>(s: seq<T>, x: T, y: T)
    requires y in s
    ensures Position(s + [x], y) == Position(s, y)
  {
    if s[0] != y {
      assert (s + [x])[1..] == s[1..] + [x];
      PositionAppend(s[1..], x, y);
    }
  }

  /** An element appended to a sequence that lacked it sits at the end. */
  lemma PositionLast<T>(s: seq<T>, x: T)
    requires x !in s
    ensures Position(s + [x], x) == |s|
  {
  }

  /** Extending `s` by a new element keeps every ordered subsequence
      ordered, and the new element may be appended to any of them. */
  lemma InOrderOfAppend<T>(sub: seq<T>, s: seq<T>, x: T)
    requires InOrderOf(sub, s)
    requires x !in s
    ensures InOrderOf(sub, s + [x])
    ensures InOrderOf(sub + [x], s + [x])
  {
    forall y | y in s
      ensures Position(s + [x], y) == Position(s, y)
      ensures Position(s, y) < |s|
    {
      PositionAppend(s, x, y);
    }
    PositionLast(s, x);
    var t := sub + [x];
    forall i, j | 0 <= i < j < |t|
      ensures Position(s + [x], t[i]) < Position(s + [x], t[j])
    {
      assert t[i] == sub[i] && t[i] in s;
      if j < |sub| {
        assert t[j] == sub[j];
      } else {
        assert t[j] == x;
      }
    }
  }

  /** An ordered subsequence of a duplicate-free sequence is itself
      duplicate-free. */
  lemma InOrderOfNoDuplicates<T>(sub: seq<T>, s: seq<T>)
    requires InOrderOf(sub, s)
    ensures NoDuplicates(sub)
  {
  }

  /** Dropping the first element keeps a subsequence ordered. */
  lemma InOrderOfTail<T>(sub: seq<T>, s: seq<T>)
    requires InOrderOf(sub, s) && |sub| > 0
    ensures InOrderOf(sub[1..], s)
  {
    forall i, j | 0 <= i < j < |sub| - 1
      ensures Position(s, sub[1..][i]) < Position(s, sub[1..][j])
    {
      assert sub[1..][i] == sub[i + 1] && sub[1..][j] == sub[j + 1];
    }
  }

  /** Sequences with the same elements are empty together. */
  lemma SameElementsSameEmptiness<T>(a: seq<T>, b: seq<T>)
    requires forall x :: x in a <==> x in b
    ensures |a| == 0 <==> |b| == 0
  {
    if |a| > 0 {
      assert a[0] in b;
    }
    if |b| > 0 {
      assert b[0] in a;
    }
  }

  /** Two ordered subsequences of `s` with the same elements start with
      the same element: the one that comes first in `s`. */
  lemma SameFirst<T>(a: seq<T>, b: seq<T>, s: seq<T>)
    requires InOrderOf(a, s) && InOrderOf(b, s)
    requires forall x :: x in a <==> x in b
    requires |a| > 0 && |b| > 0
    ensures a[0] == b[0]
  {
    assert a[0] in b && b[0] in a;
    var i :| 0 <= i < |b| && b[i] == a[0];
    var j :| 0 <= j < |a| && a[j] == b[0];
  }

  /** Removing a shared first element from duplicate-free sequences with
      the same elements leaves sequences with the same elements. */
  lemma SameTailElements<T>(a: seq<T>, b: seq<T>)
    requires NoDuplicates(a) && NoDuplicates(b)
    requires forall x :: x in a <==> x in b
    requires |a| > 0 && |b| > 0 && a[0] == b[0]
    ensures forall x :: x in a[1..] <==> x in b[1..]
  {
    forall x
      ensures x in a[1..] ==> x in b[1..]
      ensures x in b[1..] ==> x in a[1..]
    {
      if x in a[1..] {
        var k :| 1 <= k < |a| && a[k] == x;
        assert x in a;
        var m :| 0 <= m < |b| && b[m] == x;
        assert m != 0;
        assert x == b[1..][m - 1];
      }
      if x in b[1..] {
        var k :| 1 <= k < |b| && b[k] == x;
        assert x in b;
        var m :| 0 <= m < |a| && a[m] == x;
        assert m != 0;
        assert x == a[1..][m - 1];
      }
    }
  }

  /** Order and membership pin a list down: two ordered subsequences of
      `s` with the same elements are the same sequence. */
  lemma {:induction false} InOrderOfUnique<T>(a: seq<T>, b: seq<T>, s: seq<T>)
    requires InOrderOf(a, s) && InOrderOf(b, s)
    requires forall x :: x in a <==> x in b
    ensures a == b
    decreases |a|
  {
    SameElementsSameEmptiness(a, b);
    if |a| > 0 {
      SameFirst(a, b, s);
      InOrderOfNoDuplicates(a, s);
      InOrderOfNoDuplicates(b, s);
      SameTailElements(a, b);
      InOrderOfTail(a, s);
      InOrderOfTail(b, s);
      InOrderOfUnique(a[1..], b[1..], s);
      assert a == [a[0]] + a[1..] && b == [b[0]] + b[1..];
    }
  }
}

=== FILE: performance_decay.dfy ===
/** `check_performance_decay` of drift_monitoring_example.py: compare each
    current metric with its baseline value and flag those that fell by more
    than a relative threshold. */
module PerformanceDecay {
  import opened Wrappers
  import opened OrderedMaps
  import opened FeatureScan
  import opened DriftChecks

  /** The per-metric entry of `comparison`. */
  datatype Comparison = Comparison(baseline: real, current: real, decay: real, decayPercentage: real, thresholdExceeded: bool)

  /** The relative decay `(baseline - current) / baseline`, or 0 when the
      baseline value is not positive. */
  function DecayPercentage(baseline: real, current: real): (p: real)
    ensures baseline <= 0.0 ==> p == 0.0
    ensures baseline > 0.0 ==> p * baseline == baseline - current
    ensures baseline > 0.0 ==> (p > 0.0 <==> current < baseline)
    ensures baseline > 0.0 && current >= 0.0 ==> p <= 1.0
  {
    if baseline > 0.0 then
      var p := (baseline - current) / baseline;
      assert p * baseline == baseline - current;
      p
    else 0.0
  }

  function Compare(baseline: real, current: real, threshold: real): Comparison {
    var pct := DecayPercentage(baseline, current);
    Comparison(baseline, current, baseline - current, pct, pct > threshold)
  }

  /** The default `threshold` of `check_performance_decay`: a drop of more
      than 10% of the baseline value is decay. */
  const DefaultDecayThreshold: real := 0.10

  datatype DecayResult = DecayResult(decayDetected: bool, metricsWithDecay: seq<string>, comparison: OrderedMap<Comparison>)

  /** `check_performance_decay` with the loaded baseline passed in: it
      reads the baseline's performance metrics, walks `currentMetrics` in
      order and skips metrics the baseline lacks. */
  function CheckPerformanceDecay(currentMetrics: OrderedMap<real>, baseline: Baseline, threshold: real): (r: DecayResult)
    requires currentMetrics.Valid()
    ensures r.comparison.Valid()
    ensures forall m :: m in r.comparison.entries <==> m in currentMetrics.keys && m in baseline.performanceBaseline
    ensures forall m :: m in r.comparison.entries ==>
              r.comparison.entries[m] == Compare(baseline.performanceBaseline[m], currentMetrics.entries[m], threshold)
    ensures forall m :: m in r.metricsWithDecay <==>
              m in currentMetrics.keys && m in baseline.performanceBaseline
              && DecayPercentage(baseline.performanceBaseline[m], currentMetrics.entries[m]) > threshold
    ensures forall m :: m in r.comparison.entries ==> (r.comparison.entries[m].thresholdExceeded <==> m in r.metricsWithDecay)
    ensures NoDuplicates(r.metricsWithDecay)
    ensures InOrderOf(r.metricsWithDecay, currentMetrics.keys)
    ensures InOrderOf(r.comparison.keys, currentMetrics.keys)
    ensures r.decayDetected <==> |r.metricsWithDecay| > 0
    ensures r.decayDetected ==> |r.comparison.keys| > 0
  {
    var baselinePerformance := baseline.performanceBaseline;
    var scan := Scan(
      currentMetrics.keys,
      m => if m in baselinePerformance && m in currentMetrics.entries
           then Some(Compare(baselinePerformance[m], currentMetrics.entries[m], threshold))
           else Option.None,
      (c: Comparison) => c.thresholdExceeded);
    DecayResult(|scan.flagged| > 0, scan.flagged, scan.stats)
  }

  /** A metric whose baseline value is zero or negative has decay
      percentage 0, so it is flagged only under a negative threshold. */
  lemma NonPositiveBaselineNotFlagged(currentMetrics: OrderedMap<real>, baseline: Baseline, threshold: real, m: string)
    requires currentMetrics.Valid()
    requires threshold >= 0.0
    requires m in baseline.performanceBaseline && baseline.performanceBaseline[m] <= 0.0
    ensures m !in CheckPerformanceDecay(currentMetrics, baseline, threshold).metricsWithDecay
  {
  }
}

=== FILE: prediction_api.dfy ===
/** The decision logic of the `/predict` handler in api.py: reject a
    missing or blank `text`, extract the features of the stripped text,
    and shape the response from the classifier's verdict.

    The scaler and the classifier are opaque: they appear as one function
    from features to a score, which yields `None` where they raise. */
module PredictionApi {
  import opened Wrappers
  import opened Text
  import opened UrlFeatures

  /** The `risk_level` buckets of the phishing probability. */
  datatype RiskLevel = Low | Medium | High {

    function Label(): string {
      match this
      case Low => "low"
      case Medium => "medium"
      case High => "high"
    }

    function Rank(): nat {
      match this
      case Low => 0
      case Medium => 1
      case High => 2
    }
  }

  /** `risk_level`: below 0.3 low, below 0.7 medium, otherwise high. */
  function RiskLevelOf(phishingProbability: real): (r: RiskLevel)
    ensures r == Low <==> phishingProbability < 0.3
    ensures r == Medium <==> 0.3 <= phishingProbability < 0.7
    ensures r == High <==> phishingProbability >= 0.7
    ensures r.Label() == "low" <==> phishingProbability < 0.3
    ensures r.Label() == "medium" <==> 0.3 <= phishingProbability < 0.7
    ensures r.Label() == "high" <==> phishingProbability >= 0.7
  {
    if phishingProbability < 0.3 then Low
    else if phishingProbability < 0.7 then Medium
    else High
  }

  /** A higher phishing probability never lowers the risk level. */
  lemma RiskLevelMonotone(p: real, q: real)
    requires p <= q
    ensures RiskLevelOf(p).Rank() <= RiskLevelOf(q).Rank()
  {
  }

  /** `prediction_label`: only the class 1 is called phishing. */
  function PredictionLabel(prediction: int): (name: string)
    ensures name == "phishing" <==> prediction == 1
    ensures name == "phishing" || name == "legitimate"
  {
    if prediction == 1 then "phishing" else "legitimate"
  }

  /** The longest text echoed back verbatim. */
  const EchoLimit: nat := 100

  /** `analyzed_text`: the text itself when it has at most 100 characters,
      else its first 100 characters and `...`. */
  function AnalyzedText(text: string): (r: string)
    ensures |r| <= EchoLimit + 3
    ensures |text| <= EchoLimit ==> r == text
    ensures r == text <==> |text| <= EchoLimit || (|text| == EchoLimit + 3 && text[EchoLimit..] == "...")
    ensures |text| > EchoLimit ==> |r| == EchoLimit + 3 && r[..EchoLimit] == text[..EchoLimit] && r[EchoLimit..] == "..."
  {
    if |text| > EchoLimit then text[..EchoLimit] + "..." else text
  }

  /** The request's `text` field, read from a parsed JSON body: absent
      (the body is a JSON object without `text`, or an empty or falsy JSON
      value such as `null` or `{}`), not a string, or a string. */
  datatype TextField = Missing | NotAString | Given(value: string)

  /** What the scaler and classifier produce: the predicted class, the
      probability of that class, and the probability of phishing. */
  datatype Score = Score(prediction: int, confidence: real, phishingProbability: real)

  /** The body of a 200 response, without the timestamp and rounding. */
  datatype Prediction = Prediction(
    prediction: int,
    predictionLabel: string,
    confidence: real,
    phishingProbability: real,
    riskLevel: RiskLevel,
    features: Features,
    analyzedText: string)

  datatype Rejection = TextRequired | TextEmpty

  datatype Response = Ok(body: Prediction) | BadRequest(reason: Rejection) | ServerError {

    function StatusCode(): int {
      match this
      case Ok(_) => 200
      case BadRequest(_) => 400
      case ServerError => 500
    }
  }

  /** `predict`: validate, extract, classify, shape. */
  function Predict(field: TextField, classify: Features -> Option<Score>): (r: Response)
    ensures r.BadRequest? <==> field.Missing? || (field.Given? && Strip(field.value) == [])
    ensures r.BadRequest? ==> (r.reason == TextRequired <==> field.Missing?)
    ensures field.NotAString? ==> r == ServerError
    ensures r.StatusCode() == 400 <==> field.Missing? || (field.Given? && Strip(field.value) == [])
    ensures r.StatusCode() == 500 <==>
              field.NotAString? || (field.Given? && Strip(field.value) != [] && classify(ExtractFeatures(Strip(field.value))).None?)
    ensures r.StatusCode() == 200 <==> r.Ok?
    ensures field.Given? && Strip(field.value) != [] ==>
              var text := Strip(field.value);
              && (r.ServerError? <==> classify(ExtractFeatures(text)).None?)
              && (r.Ok? ==>
                    var score := classify(ExtractFeatures(text)).value;
                    && r.body.features == ExtractFeatures(text)
                    && r.body.prediction == score.prediction
                    && (score.prediction == 1 ==> r.body.predictionLabel == "phishing")
                    && (score.prediction != 1 ==> r.body.predictionLabel == "legitimate")
                    && r.body.confidence == score.confidence
                    && r.body.phishingProbability == score.phishingProbability
                    && r.body.riskLevel == RiskLevelOf(score.phishingProbability)
                    && |r.body.analyzedText| <= EchoLimit + 3
                    && (|text| <= EchoLimit ==> r.body.analyzedText == text)
                    && (|text| > EchoLimit ==> r.body.analyzedText == text[..EchoLimit] + "..."))
  {
    match field
    case Missing => BadRequest(TextRequired)
    case NotAString => ServerError
    case Given(raw) =>
      var text := Strip(raw);
      if text == [] then BadRequest(TextEmpty)
      else
        var features := ExtractFeatures(text);
        match classify(features)
        case None => ServerError
        case Some(score) =>
          Ok(Prediction(
            score.prediction,
            PredictionLabel(score.prediction),
            score.confidence,
            score.phishingProbability,
            RiskLevelOf(score.phishingProbability),
            features,
            AnalyzedText(text)))
  }

  /** A rejected request never reaches the classifier: its response is the
      same whatever the classifier would say. */
  lemma RejectionIgnoresClassifier(field: TextField, c1: Features -> Option<Score>, c2: Features -> Option<Score>)
    requires Predict(field, c1).BadRequest?
    ensures Predict(field, c2) == Predict(field, c1)
  {
  }

  /** Text made only of whitespace is rejected as empty, because the
      handler strips it first. */
  lemma WhitespaceOnlyIsEmpty(classify: Features -> Option<Score>)
    ensures Predict(Given(" \t\n "), classify) == BadRequest(TextEmpty)
  {
    assert forall i :: 0 <= i < |" \t\n "| ==> IsSpace(" \t\n "[i]);
  }
}

=== FILE: retraining.dfy ===
/** `should_retrain` of drift_monitoring_example.py: fold a drift result
    and an optional performance-decay result into a recommendation with an
    urgency, the reasons in the order they were found, and an action. */
module Retraining {
  import W = Wrappers
  import opened OrderedMaps
  import opened DriftSeverity
  import opened DriftChecks
  import opened PerformanceDecay

  /** The urgency tiers, ordered NONE < LOW < MEDIUM < URGENT. */
  datatype Urgency = None | Low | Medium | Urgent

  function UrgencyRank(u: Urgency): nat {
    match u
    case None => 0
    case Low => 1
    case Medium => 2
    case Urgent => 3
  }

  /** A reason line by kind. Drift reasons carry the number of drifted
      features the text reports; decay reasons carry the maximum decay
      percentage the text formats. */
  datatype Reason =
    | HighDrift(featureCount: nat)
    | ModerateDrift(featureCount: nat)
    | LowDrift(featureCount: nat)
    | SevereDecay(maxDecay: real)
    | Decay(maxDecay: real)
  {
    predicate IsDecay() {
      SevereDecay? || Decay?
    }
  }

  datatype Recommendation = Recommendation(shouldRetrain: bool, urgency: Urgency, reasons: seq<Reason>, action: string)

  const ContinueMonitoring: string := "Continue monitoring"
  const RetrainWithinDays: string := "Retrain immediately (within 1-2 days)"
  const ScheduleRetraining: string := "Schedule retraining (within 1 week)"
  const MonitorClosely: string := "Monitor closely, consider retraining if persists"
  const RetrainImmediately: string := "Retrain immediately"

  /** A maximum decay percentage above this makes decay urgent. */
  const SevereDecayCutoff: real := 0.15

  /** The recommendation before anything is analysed. */
  const Initial: Recommendation := Recommendation(false, Urgency.None, [], ContinueMonitoring)

  /** The largest decay percentage among the compared metrics. */
  function MaxDecayOver(keys: seq<string>, entries: map<string, Comparison>): (m: real)
    requires |keys| > 0
    requires forall k :: k in keys ==> k in entries
    ensures forall k :: k in keys ==> entries[k].decayPercentage <= m
    ensures exists k :: k in keys && entries[k].decayPercentage == m
    decreases |keys|
  {
    var head := entries[keys[0]].decayPercentage;
    if |keys| == 1 then head
    else
      var rest := MaxDecayOver(keys[1..], entries);
      assert forall k :: k in keys ==> k == keys[0] || k in keys[1..];
      if head >= rest then head else rest
  }

  /** Decay results are optional; `performance_results` counts only when
      present and flagged. */
  predicate DecayDetected(perf: W.Option<DecayResult>) {
    perf.Some? && perf.value.decayDetected
  }

  /** What `max(...)` over the comparison needs: a flagged result compared
      at least one metric. Every result of `CheckPerformanceDecay` has it. */
  ghost predicate WellFormedDecay(perf: W.Option<DecayResult>) {
    DecayDetected(perf) ==> perf.value.comparison.Valid() && |perf.value.comparison.keys| > 0
  }

  function MaxDecay(perf: W.Option<DecayResult>): real
    requires DecayDetected(perf) && WellFormedDecay(perf)
  {
    MaxDecayOver(perf.value.comparison.keys, perf.value.comparison.entries)
  }

  /** The drift half of `should_retrain`: the severity table, consulted only
      when the result says drift was detected. */
  function AssessDrift<S>(drift: DriftResult<S>): (rec: Recommendation)
    ensures |rec.reasons| <= 1
    ensures rec.shouldRetrain <==> rec.urgency == Urgency.Medium || rec.urgency == Urgency.Urgent
    ensures rec.urgency == Urgency.None <==> rec == Initial
    ensures forall i :: 0 <= i < |rec.reasons| ==> !rec.reasons[i].IsDecay()
  {
    var n := |drift.featuresWithDrift|;
    if !drift.driftDetected then Initial
    else
      match drift.severity
      case High => Recommendation(true, Urgency.Urgent, [HighDrift(n)], RetrainWithinDays)
      case Moderate => Recommendation(true, Urgency.Medium, [ModerateDrift(n)], ScheduleRetraining)
      case Low => Recommendation(false, Urgency.Low, [LowDrift(n)], MonitorClosely)
      case None => Initial
  }

  /** The decay half of `should_retrain`: it always asks for retraining,
      makes severe decay urgent with its own action, and otherwise raises
      the urgency to MEDIUM only from NONE, leaving the action alone. */
  function ApplyDecay(rec: Recommendation, perf: W.Option<DecayResult>): (r: Recommendation)
    requires WellFormedDecay(perf)
    ensures !DecayDetected(perf) ==> r == rec
    ensures DecayDetected(perf) ==> r.shouldRetrain
    ensures DecayDetected(perf) ==> |r.reasons| == |rec.reasons| + 1 && r.reasons[..|rec.reasons|] == rec.reasons
    ensures DecayDetected(perf) ==> r.reasons[|rec.reasons|].IsDecay() && r.reasons[|rec.reasons|].maxDecay == MaxDecay(perf)
    ensures UrgencyRank(r.urgency) >= UrgencyRank(rec.urgency)
    ensures DecayDetected(perf) && MaxDecay(perf) > SevereDecayCutoff ==>
              r.urgency == Urgency.Urgent && r.action == RetrainImmediately
              && r.reasons == rec.reasons + [SevereDecay(MaxDecay(perf))]
    ensures DecayDetected(perf) && MaxDecay(perf) <= SevereDecayCutoff ==>
              r.action == rec.action
              && r.reasons == rec.reasons + [Decay(MaxDecay(perf))]
              && (rec.urgency == Urgency.None ==> r.urgency == Urgency.Medium)
              && (rec.urgency != Urgency.None ==> r.urgency == rec.urgency)
  {
    if !DecayDetected(perf) then rec
    else
      var m := MaxDecay(perf);
      if m > SevereDecayCutoff then
        Recommendation(true, Urgency.Urgent, rec.reasons + [SevereDecay(m)], RetrainImmediately)
      else
        var urgency := if rec.urgency == Urgency.None then Urgency.Medium else rec.urgency;
        Recommendation(true, urgency, rec.reasons + [Decay(m)], rec.action)
  }

  /** Drift was detected and graded above NONE. */
  predicate DriftGraded<S>(drift: DriftResult<S>, severity: Severity) {
    drift.driftDetected && drift.severity == severity
  }

  /** `should_retrain`. */
  function ShouldRetrain<S>(drift: DriftResult<S>, perf: W.Option<DecayResult>): (r: Recommendation)
    requires WellFormedDecay(perf)
    ensures r.shouldRetrain <==> DriftGraded(drift, Severity.High) || DriftGraded(drift, Severity.Moderate) || DecayDetected(perf)
    ensures r.urgency == Urgency.Urgent <==>
              DriftGraded(drift, Severity.High) || (DecayDetected(perf) && MaxDecay(perf) > SevereDecayCutoff)
    ensures r.urgency == Urgency.Low <==>
              DriftGraded(drift, Severity.Low) && !(DecayDetected(perf) && MaxDecay(perf) > SevereDecayCutoff)
    ensures r.urgency == Urgency.None <==>
              !DecayDetected(perf) && !DriftGraded(drift, Severity.High) && !DriftGraded(drift, Severity.Moderate) && !DriftGraded(drift, Severity.Low)
    ensures r.urgency == Urgency.None ==> r == Initial
    ensures |r.reasons| <= 2
    ensures |r.reasons| > 0 && !r.reasons[0].IsDecay() ==> drift.driftDetected
    ensures DecayDetected(perf) <==> |r.reasons| > 0 && r.reasons[|r.reasons| - 1].IsDecay()
  {
    AssessDriftUrgency(drift);
    ApplyDecay(AssessDrift(drift), perf)
  }

  /** The urgency of the drift half names the graded severity. */
  lemma AssessDriftUrgency<S>(drift: DriftResult<S>)
    ensures AssessDrift(drift).urgency == Urgency.Urgent <==> DriftGraded(drift, Severity.High)
    ensures AssessDrift(drift).urgency == Urgency.Medium <==> DriftGraded(drift, Severity.Moderate)
    ensures AssessDrift(drift).urgency == Urgency.Low <==> DriftGraded(drift, Severity.Low)
    ensures |AssessDrift(drift).reasons| > 0 ==> drift.driftDetected
  {
  }

  /** Without decay, the recommendation is the severity table itself. */
  lemma DriftOnlyTable<S>(drift: DriftResult<S>)
    ensures var n := |drift.featuresWithDrift|;
            && (DriftGraded(drift, Severity.High) ==>
                  ShouldRetrain(drift, W.None) == Recommendation(true, Urgency.Urgent, [HighDrift(n)], RetrainWithinDays))
            && (DriftGraded(drift, Severity.Moderate) ==>
                  ShouldRetrain(drift, W.None) == Recommendation(true, Urgency.Medium, [ModerateDrift(n)], ScheduleRetraining))
            && (DriftGraded(drift, Severity.Low) ==>
                  ShouldRetrain(drift, W.None) == Recommendation(false, Urgency.Low, [LowDrift(n)], MonitorClosely))
            && (!drift.driftDetected || drift.severity == Severity.None ==> ShouldRetrain(drift, W.None) == Initial)
  {
  }

  /** Low drift followed by mild decay: retraining is advised, yet the
      urgency stays LOW (decay raises it only from NONE) and the action
      stays the low-drift one. The result is not the maximum urgency of the
      two findings. */
  lemma LowDriftMildDecayStaysLow<S>(drift: DriftResult<S>, perf: W.Option<DecayResult>)
    requires WellFormedDecay(perf)
    requires DriftGraded(drift, Severity.Low)
    requires DecayDetected(perf) && MaxDecay(perf) <= SevereDecayCutoff
    ensures var r := ShouldRetrain(drift, perf);
            && r.shouldRetrain
            && r.urgency == Urgency.Low
            && r.action == MonitorClosely
            && r.reasons == [LowDrift(|drift.featuresWithDrift|), Decay(MaxDecay(perf))]
  {
  }

  /** Mild decay alone: retraining is advised at MEDIUM urgency while the
      action is still the default one. */
  lemma MildDecayAloneKeepsDefaultAction<S>(drift: DriftResult<S>, perf: W.Option<DecayResult>)
    requires WellFormedDecay(perf)
    requires !drift.driftDetected
    requires DecayDetected(perf) && MaxDecay(perf) <= SevereDecayCutoff
    ensures ShouldRetrain(drift, perf) == Recommendation(true, Urgency.Medium, [Decay(MaxDecay(perf))], ContinueMonitoring)
  {
  }

  /** Severe decay makes the recommendation urgent with its own action,
      whatever the drift said, and its reason comes after the drift one. */
  lemma SevereDecayOverrides<S>(drift: DriftResult<S>, perf: W.Option<DecayResult>)
    requires WellFormedDecay(perf)
    requires DecayDetected(perf) && MaxDecay(perf) > SevereDecayCutoff
    ensures var r := ShouldRetrain(drift, perf);
            && r.shouldRetrain && r.urgency == Urgency.Urgent && r.action == RetrainImmediately
            && r.reasons == AssessDrift(drift).reasons + [SevereDecay(MaxDecay(perf))]
  {
  }

  /** Every decay result the decay check builds may be handed to
      `ShouldRetrain`. */
  lemma CheckedDecayIsWellFormed(currentMetrics: OrderedMap<real>, baseline: Baseline, threshold: real)
    requires currentMetrics.Valid()
    ensures WellFormedDecay(W.Some(CheckPerformanceDecay(currentMetrics, baseline, threshold)))
  {
  }

  /** On a result of the simple drift check, `drift_detected` and a
      severity above NONE go together, so the table is never skipped for a
      graded result. */
  lemma CheckedDriftIsGraded(baseline: Baseline, current: map<string, Moments>, threshold: real)
    requires baseline.featureStatistics.Valid()
    ensures var r := CheckDriftSimple(baseline, current, threshold);
            r.driftDetected <==> r.severity != Severity.None
  {
  }

  /** End to end: no drift, and accuracy falling from 0.9 to 0.72 (a decay
      of 20%, above the 10% threshold and the 15% cut-off) asks for urgent
      retraining with the decay's own action. */
  lemma SevereDecayScenario<S>(drift: DriftResult<S>)
    requires !drift.driftDetected
    ensures var perf := W.Some(CheckPerformanceDecay(OrderedMap(["accuracy"], map["accuracy" := 0.72]), Baseline(OrderedMap([], map[]), map["accuracy" := 0.9]), DefaultDecayThreshold));
            && WellFormedDecay(perf)
            && ShouldRetrain(drift, perf) == Recommendation(true, Urgency.Urgent, [SevereDecay(0.2)], RetrainImmediately)
  {
  }
}

=== FILE: text.dfy ===
/** The string operations api.py uses, on ASCII text: substring search,
    `str.lower`, `str.isdigit`, `str.count` for one character, and
    `str.strip`. */
module Text {
  import opened Wrappers

  /** `pat` occurs in `s` starting at index `i`. */
  predicate OccursAt(s: string, pat: string, i: int) {
    0 <= i && i + |pat| <= |s| && s[i..i + |pat|] == pat
  }

  /** The first occurrence of `pat` in `s` at or after `from`. */
  function FindFrom(s: string, pat: string, from: nat): (r: Option<nat>)
    ensures r.Some? ==> from <= r.value && OccursAt(s, pat, r.value)
    ensures r.Some? ==> forall j :: from <= j < r.value ==> !OccursAt(s, pat, j)
    ensures r.None? ==> forall j :: from <= j ==> !OccursAt(s, pat, j)
    decreases |s| + 1 - from
  {
    if from + |pat| > |s| then None
    else if s[from..from + |pat|] == pat then Some(from)
    else FindFrom(s, pat, from + 1)
  }

  /** The first occurrence of `pat` in `s`, as Python's `str.find`. */
  function Find(s: string, pat: string): (r: Option<nat>)
    ensures r.Some? ==> OccursAt(s, pat, r.value) && forall j :: 0 <= j < r.value ==> !OccursAt(s, pat, j)
    ensures r.None? <==> forall j :: !OccursAt(s, pat, j)
  {
    FindFrom(s, pat, 0)
  }

  /** Python's `pat in s` for strings. */
  function Contains(s: string, pat: string): (b: bool)
    ensures b <==> exists i :: OccursAt(s, pat, i)
  {
    Find(s, pat).Some?
  }

  predicate IsDigit(c: char) {
    '0' <= c <= '9'
  }

  predicate IsUpper(c: char) {
    'A' <= c <= 'Z'
  }

  function LowerChar(c: char): char {
    if IsUpper(c) then (c as int + 32) as char else c
  }

  /** The ASCII letters in both cases, position for position. */
  const UpperLetters: string := "ABCDEFGHIJKLMNOPQRSTUVWXYZ"
  const LowerLetters: string := "abcdefghijklmnopqrstuvwxyz"

  /** `str.lower` on ASCII text: each upper-case letter becomes the
      lower-case letter at the same alphabet position, and every other
      character stays as it is. */
  function Lower(s: string): (r: string)
    ensures |r| == |s|
    ensures forall i, k :: 0 <= i < |s| && 0 <= k < |UpperLetters| && s[i] == UpperLetters[k] ==> r[i] == LowerLetters[k]
    ensures forall i :: 0 <= i < |s| && !IsUpper(s[i]) ==> r[i] == s[i]
  {
    LetterTable();
    seq(|s|, i requires 0 <= i < |s| => LowerChar(s[i]))
  }

  /** `LowerChar` maps each upper-case letter to its lower-case partner. */
  lemma LetterTable()
    ensures |UpperLetters| == |LowerLetters| == 26
    ensures forall k :: 0 <= k < |UpperLetters| ==> LowerChar(UpperLetters[k]) == LowerLetters[k]
  {
  }

  /** Lower-casing twice changes nothing more. */
  lemma LowerIdempotent(s: string)
    ensures Lower(Lower(s)) == Lower(s)
  {
  }

  /** `s.count(c)` for a single character. */
  function CountChar(s: string, c: char): (n: nat)
    ensures n == multiset(s)[c]
    ensures n <= |s|
  {
    if |s| == 0 then 0
    else
      assert s == [s[0]] + s[1..];
      (if s[0] == c then 1 else 0) + CountChar(s[1..], c)
  }

  /** Python's `str.isspace` on ASCII: space, \t, \n, \v, \f, \r and the
      separators \x1c to \x1f. */
  predicate IsSpace(c: char) {
    c == ' ' || '\t' <= c <= '\r' || '\U{1C}' <= c <= '\U{1F}'
  }

  /** `s.lstrip()`. */
  function TrimStart(s: string): (r: string)
    ensures |r| <= |s| && r == s[|s| - |r|..]
    ensures forall i :: 0 <= i < |s| - |r| ==> IsSpace(s[i])
    ensures |r| > 0 ==> !IsSpace(r[0])
    decreases |s|
  {
    if |s| > 0 && IsSpace(s[0]) then TrimStart(s[1..]) else s
  }

  /** `s.rstrip()`. */
  function TrimEnd(s: string): (r: string)
    ensures |r| <= |s| && r == s[..|r|]
    ensures forall i :: |r| <= i < |s| ==> IsSpace(s[i])
    ensures |r| > 0 ==> !IsSpace(r[|r| - 1])
    decreases |s|
  {
    if |s| > 0 && IsSpace(s[|s| - 1]) then TrimEnd(s[..|s| - 1]) else s
  }

  /** `r` is the slice of `s` starting at `lo` and everything of `s`
      around it is whitespace. */
  predicate SliceAmidSpace(s: string, r: string, lo: int) {
    && 0 <= lo <= |s| - |r|
    && r == s[lo..lo + |r|]
    && (forall i :: 0 <= i < lo ==> IsSpace(s[i]))
    && (forall i :: lo + |r| <= i < |s| ==> IsSpace(s[i]))
  }

  /** `s.strip()`: remove leading and trailing whitespace. */
  function Strip(s: string): (r: string)
    ensures |r| <= |s|
    ensures exists lo :: SliceAmidSpace(s, r, lo)
    ensures |r| > 0 ==> !IsSpace(r[0]) && !IsSpace(r[|r| - 1])
    ensures |r| == 0 <==> forall i :: 0 <= i < |s| ==> IsSpace(s[i])
  {
    var t := TrimStart(s);
    var r := TrimEnd(t);
    StripSlice(s, t, r);
    r
  }

  /** A prefix `r` of a suffix `t` of `s`, with whitespace before `t` and
      after `r`, is a slice of `s` amid whitespace. */
  lemma StripSlice(s: string, t: string, r: string)
    requires |t| <= |s| && t == s[|s| - |t|..]
    requires |r| <= |t| && r == t[..|r|]
    requires forall i :: 0 <= i < |s| - |t| ==> IsSpace(s[i])
    requires forall j :: |r| <= j < |t| ==> IsSpace(t[j])
    ensures SliceAmidSpace(s, r, |s| - |t|)
  {
    var lo := |s| - |t|;
    assert r == s[lo..lo + |r|];
    forall i | lo + |r| <= i < |s|
      ensures IsSpace(s[i])
    {
      assert s[i] == t[i - lo];
    }
  }
}

=== FILE: url_features.dfy ===
/** `extract_features_from_text` of api.py: six integer features read off
    a URL (or any text) by prefix tests, substring search and counting the
    dots of the host segment. */
module UrlFeatures {
  import opened Text

  /** The six features, named as the model's columns. */
  datatype Features = Features(
    abnormalUrl: int,
    prefixSuffix: int,
    sslFinalState: int,
    shortiningService: int,
    havingAtSymbol: int,
    havingSubDomain: int)

  /** Python's `s[:n]`. */
  function Head(s: string, n: nat): string {
    if n < |s| then s[..n] else s
  }

  /** `any(char.isdigit() for char in s)`. */
  function AnyDigit(s: string): (b: bool)
    ensures b <==> exists i :: 0 <= i < |s| && IsDigit(s[i])
  {
    if |s| == 0 then false
    else IsDigit(s[0]) || (assert forall i :: 1 <= i < |s| ==> s[i] == s[1..][i - 1]; AnyDigit(s[1..]))
  }

  /** `Abnormal_URL`: a digit among the first 20 characters, or more than
      100 characters. */
  function AbnormalUrl(text: string): (v: int)
    ensures v == 0 || v == 1
    ensures v == 1 <==> |text| > 100 || exists i :: 0 <= i < |text| && i < 20 && IsDigit(text[i])
  {
    var head := Head(text, 20);
    assert forall i :: 0 <= i < |head| ==> head[i] == text[i];
    var isAbnormal := if AnyDigit(head) then 1 else 0;
    if |text| > 100 then 1 else isAbnormal
  }

  /** No `//` starts before index `i`. */
  predicate NoSeparatorBefore(text: string, i: int) {
    forall j :: 0 <= j < i ==> !OccursAt(text, "//", j)
  }

  /** `Prefix_Suffix`: a hyphen before the first `//` when there is one,
      and otherwise a hyphen among the first 30 characters. */
  function PrefixSuffix(text: string): (v: int)
    ensures v == 0 || v == 1
    ensures Contains(text, "//") ==>
              (v == 1 <==> exists i :: 0 <= i < |text| && text[i] == '-' && NoSeparatorBefore(text, i))
    ensures !Contains(text, "//") ==>
              (v == 1 <==> exists i :: 0 <= i < |text| && i < 30 && text[i] == '-')
  {
    match Find(text, "//")
    case Some(k) =>
      var before := text[..k];
      if '-' in before then 1 else 0
    case None =>
      var head := Head(text, 30);
      assert forall i :: 0 <= i < |head| ==> head[i] == text[i];
      if '-' in head then 1 else 0
  }

  /** `text.startswith(prefix)`. */
  predicate StartsWith(text: string, prefix: string) {
    |prefix| <= |text| && text[..|prefix|] == prefix
  }

  /** `SSLfinal_State`: 1 for `https://`, -1 for `http://`, 0 otherwise. */
  function SslFinalState(text: string): (v: int)
    ensures v == 1 <==> OccursAt(text, "https://", 0)
    ensures v == -1 <==> OccursAt(text, "http://", 0)
    ensures v == 0 <==> !OccursAt(text, "https://", 0) && !OccursAt(text, "http://", 0)
  {
    if StartsWith(text, "https://") then
      assert text[..7] != "http://" by {
        assert text[..7][4] == 's';
      }
      1
    else if StartsWith(text, "http://") then -1
    else 0
  }

  /** The URL shortener host names the service looks for. */
  const Shorteners: seq<string> := ["bit.ly", "goo.gl", "tinyurl", "ow.ly", "t.co", "is.gd", "buff.ly", "adf.ly"]

  /** `any(short in lowered for short in shorteners)`. */
  function AnyShortener(lowered: string, shorteners: seq<string>): (b: bool)
    ensures b <==> exists k, i :: 0 <= k < |shorteners| && OccursAt(lowered, shorteners[k], i)
  {
    if |shorteners| == 0 then false
    else if Contains(lowered, shorteners[0]) then true
    else
      var b := AnyShortener(lowered, shorteners[1..]);
      assert forall k :: 1 <= k < |shorteners| ==> shorteners[k] == shorteners[1..][k - 1];
      assert b ==> exists k, i :: 0 <= k < |shorteners| && OccursAt(lowered, shorteners[k], i) by {
        if b {
          var k, i :| 0 <= k < |shorteners[1..]| && OccursAt(lowered, shorteners[1..][k], i);
          assert OccursAt(lowered, shorteners[k + 1], i);
        }
      }
      b
  }

  /** `Shortining_Service`: one of the shortener names occurs anywhere in
      the lower-cased text. */
  function ShortiningService(text: string): (v: int)
    ensures v == 0 || v == 1
    ensures v == 1 <==> exists k, i :: 0 <= k < |Shorteners| && OccursAt(Lower(text), Shorteners[k], i)
  {
    if AnyShortener(Lower(text), Shorteners) then 1 else 0
  }

  /** `having_At_Symbol`: an `@` anywhere. */
  function HavingAtSymbol(text: string): (v: int)
    ensures v == 0 || v == 1
    ensures v == 1 <==> exists i :: 0 <= i < |text| && text[i] == '@'
  {
    if '@' in text then 1 else 0
  }

  /** A one-character pattern occurs exactly where that character is. */
  lemma OccursAtChar(s: string, c: char, j: int)
    ensures OccursAt(s, [c], j) <==> 0 <= j < |s| && s[j] == c
  {
  }

  /** `text.split('//')[1].split('/')[0]` when `//` occurs, and `text`
      otherwise: the part after the first `//` up to the next `/`. */
  function HostPart(text: string): (host: string)
    ensures Find(text, "//").None? ==> host == text
    ensures Find(text, "//").Some? ==>
              var start := Find(text, "//").value + 2;
              && start + |host| <= |text|
              && host == text[start..start + |host|]
              && '/' !in host
              && (start + |host| == |text| || text[start + |host|] == '/')
  {
    match Find(text, "//")
    case None => text
    case Some(k) =>
      var rest := text[k + 2..];
      var piece := match Find(rest, "//") case None => rest case Some(j) => rest[..j];
      assert |piece| == |rest| || rest[|piece|] == '/' by {
        if Find(rest, "//").Some? {
          assert rest[|piece|..|piece| + 2][0] == rest[|piece|];
        }
      }
      match Find(piece, "/")
      case None =>
        forall j | 0 <= j < |piece|
          ensures piece[j] != '/'
        {
          OccursAtChar(piece, '/', j);
        }
        piece
      case Some(m) =>
        OccursAtChar(piece, '/', m);
        forall j | 0 <= j < m
          ensures piece[j] != '/'
        {
          OccursAtChar(piece, '/', j);
        }
        piece[..m]
  }

  /** The sub-domain level for a number of dots in the host: 0 for at most
      one, 1 for exactly two, 2 for more. */
  function SubDomainLevel(dots: nat): int {
    if dots <= 1 then 0 else if dots == 2 then 1 else 2
  }

  /** `having_Sub_Domain`: the dots of the host segment, bucketed. */
  function HavingSubDomain(text: string): (v: int)
    ensures 0 <= v <= 2
    ensures var dots := multiset(HostPart(text))['.'];
            && (v == 0 <==> dots <= 1)
            && (v == 1 <==> dots == 2)
            && (v == 2 <==> dots >= 3)
  {
    SubDomainLevel(CountChar(HostPart(text), '.'))
  }

  /** `extract_features_from_text`. The source then orders the values by
      the model's feature list; that list is the classifier's business. */
  function ExtractFeatures(text: string): (f: Features)
    ensures f.abnormalUrl in {0, 1}
    ensures f.prefixSuffix in {0, 1}
    ensures f.sslFinalState in {-1, 0, 1}
    ensures f.shortiningService in {0, 1}
    ensures f.havingAtSymbol in {0, 1}
    ensures f.havingSubDomain in {0, 1, 2}
  {
    Features(
      AbnormalUrl(text),
      PrefixSuffix(text),
      SslFinalState(text),
      ShortiningService(text),
      HavingAtSymbol(text),
      HavingSubDomain(text))
  }

  /** The shortener test ignores case. */
  lemma ShortenerIgnoresCase(text: string)
    ensures ShortiningService(Lower(text)) == ShortiningService(text)
  {
    LowerIdempotent(text);
  }

  /** Upper-case text is lower-cased before the search, so a shouting
      `HTTP://BIT.LY/A` is still flagged as a shortened link. */
  lemma UpperCaseShortenerFound()
    ensures ShortiningService("HTTP://BIT.LY/A") == 1
  {
    assert Lower("HTTP://BIT.LY/A") == "http://bit.ly/a";
    assert OccursAt(Lower("HTTP://BIT.LY/A"), Shorteners[0], 7);
  }

  /** The shortener test is a plain substring search, so any text that
      contains `t.co` counts, an ordinary `.com` host ending in `t`
      included. */
  lemma SubstringShortenerMatch()
    ensures ShortiningService("https://microsoft.com") == 1
  {
    var lowered := Lower("https://microsoft.com");
    assert lowered == "https://microsoft.com";
    assert OccursAt(lowered, Shorteners[4], 16);
  }
}

=== FILE: wrappers.dfy ===
/** The optional-value datatype used for lookups that may miss and for
    features a drift check skips. */
module Wrappers {

  datatype Option<+T> = None | Some(value: T)
}
